=== FILE: README.md ===
# Pet adoption backend — a Dafny model

This project models the core of a pet-adoption REST backend:
- the Users controller: register, login, Google sign-in, edit profile;
- the Pets controller: list, get, filter, add, request adoption, list own pets, update, adopt, delete;
- the `$jsonSchema` validators that the database setup installs on the Users, Pets and Favorites collections.

Each collection is a sequence of records in natural order (`Store`). Every
handler is a pure function of the collection(s) and the request's inputs.
The handlers that write (register, Google sign-in, edit user, add, request
adoption, update, adopt, delete) return a `Reply(store, result)`: the
collection after the call, plus either the success payload or a `Failure`.
The read-only handlers return their answer directly: login and get-one-pet
return a `Result`, and list-all, filter and list-own-pets return a sequence.
A `Failure` is one of:
- an error object the handler throws itself, `Fail(status, message)`;
- a write refused by the collection's validator, `DocumentInvalid`;
- a field read on null or undefined, `NullDereference`: either the `value` of a `findOneAndUpdate` that matched nothing, or an absent `pet_detail.Owner`.

Files:
- `store.dfy` (`Store`): `Option`, `Result`, `Failure` and `Reply`. `Filter` models `find`. `FirstIndex` models `findOne`, and also picks the record `findOneAndUpdate` and `deleteOne` act on. `FreshId` models `_id` assignment.
- `schema.dfy` (`Schema`): the stored records and the documents written to the store. A document field that is `None` is a `null`/`undefined` value. The file defines the validators, and the email pattern as a character-level check proved equal to the regular expression's grammar.
- `users.dfy` (`Users`): the Users handlers.
- `pets.dfy` (`Pets`): the Pets handlers, and lemmas that chain handlers over a pet's lifetime.

Password hashing (`hash`), password comparison (`compare`) and token signing (`sign`) are parameters. So are the message the mail template renders and the insert count the driver reports. Nothing about them is assumed unless a lemma states it in its `requires`.

## Model

| member | source | states |
|---|---|---|
| Store.Filter | controllers/pets.js:81 | `find` returns exactly the records the query accepts, in store order: never more than the store holds, the whole store when every record matches, nothing when none does |
| Store.FilterAppend | controllers/pets.js:145-147 | `find` over a store that grew by appending equals the old answer followed by the answer over the new records |
| Store.FilterCounts | controllers/pets.js:145-147 | `find` keeps each accepted record with its full multiplicity and drops rejected ones completely |
| Store.FilterNarrowing | controllers/pets.js:68-81 | a stricter query's answer is the looser query's answer filtered again, so a sub-list no longer than it |
| Store.FirstIndex | controllers/users.js:25 | `findOne` yields the first record in natural order that matches, and nothing exactly when no record matches |
| Store.FirstIndexAppend | controllers/users.js:25 | after an insert, `findOne` still finds the earlier match, or the new record when nothing earlier matched |
| Store.FreshId | controllers/users.js:29 | the identifier given to an inserted record is above every identifier in use |
| Store.DistinctAppendFresh | controllers/pets.js:103 | inserting with a fresh identifier keeps identifiers unique |
| Schema.EmailPattern | config/db-setup.js:22 | the email `pattern` as the validator applies it: the text before the first `@` is one or more of the letters, digits and symbols of the local class, and the rest is a domain of labels over `[a-zA-Z0-9-]` joined by any character but a newline |
| Schema.DomainGrammarHasShape | config/db-setup.js:22 | every domain the regular expression's `[a-zA-Z0-9-]+(?:.[a-zA-Z0-9-]+)*` derives passes the character-level check |
| Schema.DomainShapeHasGrammar | config/db-setup.js:22 | every domain that passes the character-level check has a derivation in the grammar |
| Schema.DomainShapeIsGrammar | config/db-setup.js:22 | the character-level domain check and the grammar agree on every string |
| Schema.EmailPatternIsGrammar | config/db-setup.js:22 | the email check accepts a string exactly when it is a non-empty local part of the allowed symbols, an `@`, then a domain of the grammar |
| Schema.LocalPartEndsAtFirstAt | config/db-setup.js:22 | the local part cannot contain `@`, so a match splits the address at its first `@` and nowhere else |
| Schema.EmailPatternAdmits | config/db-setup.js:22 | `local@label` is accepted, and so is `local@label` + any character but a newline + `label`: the unescaped `.` lets any separator through, not only a dot |
| Schema.EmailPatternSplit | config/db-setup.js:22 | a valid local part, `@`, and a domain that passes the check together form an accepted address |
| Schema.EmailPatternRejectsTrailingSeparator | config/db-setup.js:22 | an address whose last character is not a letter, digit or `-` is rejected |
| Schema.ValidUserDoc | config/db-setup.js:3-39 | the Users `$jsonSchema`: username, email, password, address and phone are all present strings, and the email matches the pattern |
| Schema.UserDocOf | config/db-setup.js:3-39 | the Users validator admits a stored user's document exactly when the user is valid; the email and the password hash are written unchanged |
| Schema.ToUser | config/db-setup.js:3-39 | a document the Users validator admits is stored as a valid user, and reading that user back gives the same document |
| Schema.ValidPetDoc | config/db-setup.js:41-115 | the Pets `$jsonSchema`: all ten fields are present with their types; age is baby, young, adult or senior; gender is male or female; type is dog or cat |
| Schema.PetDocOf | config/db-setup.js:41-115 | the Pets validator admits a pet's document exactly when age, gender and type are among the allowed values; status, request and owner are written unchanged |
| Schema.ToPet | config/db-setup.js:41-115 | a document the Pets validator admits is stored as a valid pet, and reading that pet back gives the same document |
| Schema.ValidFavoriteDoc | config/db-setup.js:117-135 | the Favorites `$jsonSchema`: `pet_id` and `user_id` are both present |
| Schema.FavoriteDocOf | config/db-setup.js:117-135 | every favorite's document carries both required identifiers |
| Schema.ToFavorite | config/db-setup.js:117-135 | an admitted favorite document round-trips through the stored record |
| Users.Utf16Length | controllers/users.js:16-20 | `.length` lies between the number of characters and twice that number, and is 0 only for the empty string |
| Users.Utf16LengthAppend | controllers/users.js:16-20 | `.length` of a concatenation is the sum of the two lengths |
| Users.Utf16LengthOfBmp | controllers/users.js:16-20 | `.length` equals the character count exactly when no character lies outside the Basic Multilingual Plane |
| Users.AstralCountsTwice | controllers/users.js:16 | four code units plus one astral character make six code units in at most five characters, so such a password passes the six-character rule |
| Users.CheckFields | controllers/users.js:14-23 | registration input is accepted exactly when no rule is broken. Otherwise the answer is the 400 message of the first broken rule in the handler's order: null field; password under 6; username under 6; phone non-empty but under 11; empty email, address or phone. Lengths are JavaScript `.length`, counted in UTF-16 code units |
| Users.Register | controllers/users.js:10-46 | a refusal changes nothing. Field errors come first, then an already-used email (400), then the validator. Success holds exactly when the fields pass, the email is new and it matches the pattern. On success one user is appended with a fresh id and the hashed password, and the reply projects email, id and username. Unique ids and valid records are preserved |
| Users.RegisterNullFirst | controllers/users.js:14-15 | any null field is answered with "Please fill all the columns" before any other check |
| Users.RegisterPasswordBeforeUsername | controllers/users.js:16-19 | a short password is reported even when the username is also short |
| Users.RegisterEmptyPhone | controllers/users.js:20-23 | an empty phone skips the length rule and is refused as an unfilled column |
| Users.RegisterTwice | controllers/users.js:25-27 | registering the same body again is refused with "Email already exists" and changes nothing |
| Users.Login | controllers/users.js:48-76 | every failure is 401 "Invalid email/password"; an unknown email fails; for the first user with that email, login succeeds exactly when the password compares, and returns the token signed over that user's id, username and email, plus the account |
| Users.LoginDoesNotRevealAccounts | controllers/users.js:57-60 | an unknown email and a wrong password get identical replies |
| Users.RegisterThenLogin | controllers/users.js:29-35 | after a successful registration, logging in with the same email and password returns the new account (given a `compare` that accepts a password against its own hash) |
| Users.EmailLocalName | controllers/users.js:105 | the fallback username is the part of the email before its first `@`, and is empty when there is no `@` |
| Users.GoogleUsername | controllers/users.js:105 | a non-empty profile name is the username; an absent or empty one (both falsy) falls back to the email's text before its first `@`, or "" when there is no `@` |
| Users.GoogleSignIn | controllers/users.js:78-125 | an existing email signs in as that account and writes nothing. An unknown one is inserted with the profile name (or the email's local name), the hashed shared password, and `-` as address and phone, unless the validator refuses the email. Unique ids and valid records are preserved |
| Users.GoogleSignInTwice | controllers/users.js:88-101 | a second sign-in with the same profile writes nothing and gives the same reply as the first |
| Users.EditUser | controllers/users.js:127-148 | only the first user with the caller's id can change; its id and password never change. A caller without a record gets no reply and nothing changes. A refused write is a validator error that changes nothing. When the caller exists, the edit succeeds exactly when all four fields are given and the email matches the pattern. In that case the first record with the caller's id gets exactly the body's four fields, and the reply is that record. Unique ids and valid records are preserved |
| Pets.JoinOne | controllers/pets.js:12-23 | `$lookup` + `$unwind` pairs a pet with exactly the users whose id is its owner id |
| Pets.ReadAll | controllers/pets.js:8-30 | the listing holds exactly the pairs (pet in store, user in store, user is the pet's owner) |
| Pets.JoinOneAtMostOne | controllers/pets.js:19-23 | with unique user ids a pet yields one row when its owner exists and none otherwise |
| Pets.OwnersDistinct | controllers/pets.js:12-17 | with unique user ids at most one user is a pet's owner |
| Pets.ReadAllListsOwnedPets | controllers/pets.js:8-30 | with unique user ids the listing shows each pet whose owner exists exactly once, in store order, and drops every pet without one |
| Pets.GetOnePet | controllers/pets.js:32-63 | the result is a stored pet with the requested id, joined with its owner. It is 404 "Pet is not found" exactly when no pet with that id has an existing owner |
| Pets.FilterPets | controllers/pets.js:65-86 | a pet is listed exactly when each path parameter other than `-` equals the pet's field; all `-` lists the whole store |
| Pets.FilterPetsNarrowing | controllers/pets.js:68-81 | replacing `-` by a value never adds pets: the stricter answer is the looser answer filtered again |
| Pets.AddPet | controllers/pets.js:88-112 | a body the validator refuses changes nothing. Otherwise exactly one pet is appended: a fresh id, the body's fields, the caller as owner, not adopted, not requested. The reply is that pet when the driver reports one insert, else 400 "Insert Pet Failed" (the pet is stored anyway). Unique ids and valid records are preserved |
| Pets.AddPetWithoutBody | controllers/pets.js:91-103 | a request without a body is refused by the validator and changes nothing |
| Pets.RequestAdoption | controllers/pets.js:114-140 | an unknown id is a null dereference and changes nothing. Only the `request` flag of the first pet with the id can change, and it becomes true. A stored name that is empty gets 404 "Pet Not Found" after the write. A detail without an `Owner` is a null dereference after the write. Otherwise the reply carries the updated pet and a mail to the owner's email (undefined when the `Owner` has none), with subject "Adoption Request for " + name and the rendered form |
| Pets.GetPetByOwner | controllers/pets.js:142-152 | the list holds exactly the caller's pets, each with its multiplicity in the store |
| Pets.UpdatePet | controllers/pets.js:154-180 | 400 "Update failed" exactly when no pet has the id, with nothing changed. Only the six editable fields of the first pet with the id can change. When the pet exists, the update succeeds exactly when all six fields are given and age, gender and type are allowed values, and the reply shows the new values. Unique ids and valid records are preserved |
| Pets.AdoptPet | controllers/pets.js:182-200 | an unknown id is a null dereference. Only `status` of the first pet with the id can change. A missing status is refused by the validator. `true` answers "Adoption Successfull" and `false` answers "Adoption Canceled", both with the updated pet |
| Pets.DeletePet | controllers/pets.js:202-216 | succeeds exactly when a pet has the id, removing the first such pet and nothing else. Otherwise 404 "Pet is not found" with nothing changed. Unique ids and valid records are preserved |
| Pets.AddThenGet | controllers/pets.js:88-112 | a created pet is found by id, unadopted and unrequested, exactly when the caller's account exists |
| Pets.AddThenOwnerList | controllers/pets.js:142-152 | after a creation the caller's list is the old list plus the new pet at the end |
| Pets.AdoptThenGet | controllers/pets.js:182-193 | in a well-formed store, adopting an existing pet succeeds. `getOnePet` then answers exactly when the pet's owner exists, and answers with that pet marked adopted |
| Pets.AdoptThenCancel | controllers/pets.js:182-196 | adopting and then cancelling a pet that was not adopted restores the store |
| Pets.DeleteThenGet | controllers/pets.js:202-211 | with unique pet ids, a deleted pet is no longer found: 404 "Pet is not found" |
| Pets.UpdatePetTwice | controllers/pets.js:165-171 | repeating the same update leaves the store as one update did |
| Pets.RequestAdoptionTwice | controllers/pets.js:117-125 | repeating an adoption request changes nothing further |

## Left out

- The database driver, ObjectID parsing, Express routing and the authentication middleware are not modelled. Identifiers are natural numbers, and the caller's identity arrives as `Claims`.
- An id string that is not a valid ObjectID is not modelled. It makes `ObjectID(...)` throw before any query runs.
- bcrypt and JWT are opaque parameters. The random salt of the hash is not modelled.
- The Google ticket check is not modelled: the verified profile (email, optional name) is an input.
- The mail transport and the message template are not modelled. The model records the mail the handler would send; the rendered text is an input.
- How the error handler maps `DocumentInvalid` and `NullDereference` to HTTP statuses is not modelled; that middleware is not part of this model.
- Request fields have the type the validator expects, or are absent. Values of another type are not modelled, for instance `status` sent as the form-encoded string "true" (app.js:14 accepts form bodies), which the validator would refuse. Neither are the crashes that `.length` on an undefined register field would cause. In the bodies of editUser, addPet, updatePet and adoptPet an absent field and an explicit `null` are both `None`, since the driver writes an undefined value as `null`.
- Concurrency and atomicity between the duplicate-email `findOne` and the `insertOne` in registration are not modelled: each handler runs alone.
- Favorites has schema and record round-trips only. Its controller is not part of this model.
- Schema.EmailPattern: the `$` of the pattern also matches just before a final newline under PCRE, so the database accepts an email such as "a@b" followed by a newline. The predicate does not model that case and rejects every string that ends in a newline.
- Schema.EmailPatternIsGrammar: the grammar it is proved equal to has the same gap: a string that ends in a newline is outside it.
- Users.Login: the email is always a string; an undefined email in the body is not modelled.
- Store.FreshId: the new identifier is above every identifier in use. ObjectIDs promise only uniqueness, so the `id < new id` clauses of Users.Register, Users.GoogleSignIn and Pets.AddPet describe the model's allocator, not the database. The property the handlers rely on is that the new id is not in use.
- Pets.RequestAdoption: a request without `pet_detail`, or whose detail has no `name`, is not modelled. `pet_detail` is always present with an id and a name. What the mail helper does with an undefined recipient is not modelled either: the model records the mail with recipient `None` and the 200 reply.
- Users.Register: `None` is an explicit JSON `null`. A field that is absent from the body is not modelled. An absent email or address passes the `=== null` check (controllers/users.js:14) and the empty-string check (controllers/users.js:22), and the validator then refuses the record at the insert.
- Pets.AddPet: `pictures` is any sequence of strings. The validator requires only an array; arrays of other element types are not modelled.

## Notes on the code versus its tests

The model follows the code where the repository's tests expect something else:
- controllers/users.js:17 replies "Minimum password is six characters". test/user.test.js:62 expects "Password minimum is six characters".
- controllers/users.js:21 replies "Phone must have a minimum of eleven characters". test/user.test.js:128 expects "Phone must have minimum eleven characters".
- controllers/pets.js:175 answers an update of an unknown pet with 400 "Update failed". test/pets.test.js:178-179 expects 404 "Pet is not found", presumably from an authorization middleware that is not part of this model.
- The Pets validator requires `pictures` (config/db-setup.js:51). test/pets.test.js:92-120 adds a pet without pictures and expects 201. The code lets the validator refuse that body, so the model answers `DocumentInvalid` (`Pets.AddPetWithoutBody` covers the extreme case of no body at all).
- test/pets.test.js:212-222 sends the adopt request without a body and expects 200 "Adoption Successfull". The code writes `status: null` (controllers/pets.js:188), which the validator refuses; `Pets.AdoptPet` with no status answers `DocumentInvalid`.
- test/pets.test.js:224-235 expects 404 "Pet is not found" for adopting an unknown id. The code reads `.status` of the null result (controllers/pets.js:192); `Pets.AdoptPet` answers `NullDereference`.
- controllers/users.js:139 sends no response when the caller's record no longer exists. The model answers `NoResponse`.

=== FILE: pets.dfy ===
/** controllers/pets.js: the pet registry over the Pets collection, reading the
    Users collection for the owner join.

    Every write is a `$set` or an insert that the Pets validator checks; a
    refused write leaves the collection as it was. Mail delivery is recorded
    as the `Mail` the handler would send, not performed. */
module Pets {
  import opened Store
  import opened Schema
  import Users

  const PetNotFound := "Pet is not found"
  const RequestPetNotFound := "Pet Not Found"
  const InsertPetFailed := "Insert Pet Failed"
  const UpdateFailed := "Update failed"
  const FormDelivered := "Adoption form delivered to owner"
  const AdoptionSucceeded := "Adoption Successfull"
  const AdoptionCanceled := "Adoption Canceled"
  const DeleteSucceeded := "Successfully delete pet"
  const MailSubjectPrefix := "Adoption Request for "

  /** The path value that stands for "no constraint" in `filterPets`. */
  const NoFilter := "-"

  /** The filter `{ _id }`. */
  function PetHasId(id: Id): Pet -> bool {
    (p: Pet) => p.id == id
  }

  // ---------------------------------------------------------------------------
  // readAll / getOnePet: `$lookup` of the owner, then `$unwind` without
  // `preserveNullAndEmptyArrays`, i.e. an inner join.
  // ---------------------------------------------------------------------------

  /** A pet with its `Owner` field filled in. */
  datatype Joined = Joined(pet: Pet, owner: User)

  function IsOwnerOf(p: Pet): User -> bool {
    (u: User) => u.id == p.owner
  }

  /** One row per user whose `_id` is the pet's `user_id`; none without one. */
  function JoinOne(p: Pet, users: seq<User>): (r: seq<Joined>)
    ensures forall j :: j in r <==> j.pet == p && j.owner in users && j.owner.id == p.owner
  {
    var owners := Filter(users, IsOwnerOf(p));
    var r := seq(|owners|, k requires 0 <= k < |owners| => Joined(p, owners[k]));
    assert forall j :: j in r ==> j.owner in owners;
    assert forall u :: u in owners ==> Joined(p, u) in r by {
      forall u | u in owners ensures Joined(p, u) in r {
        var k :| 0 <= k < |owners| && owners[k] == u;
        assert r[k] == Joined(p, u);
      }
    }
    r
  }

  function ReadAll(pets: seq<Pet>, users: seq<User>): (r: seq<Joined>)
    ensures forall j :: j in r <==> j.pet in pets && j.owner in users && j.owner.id == j.pet.owner
  {
    if |pets| == 0 then []
    else
      assert forall p :: p in pets <==> p == pets[0] || p in pets[1..];
      JoinOne(pets[0], users) + ReadAll(pets[1..], users)
  }

  /** The pets `readAll` can show: those whose owner exists. */
  function HasOwner(users: seq<User>): Pet -> bool {
    (p: Pet) => p.owner in UserIds(users)
  }

  function PetsOf(rows: seq<Joined>): seq<Pet> {
    seq(|rows|, k requires 0 <= k < |rows| => rows[k].pet)
  }

  /** With distinct user identifiers a pet has at most one owner row. */
  lemma JoinOneAtMostOne(p: Pet, users: seq<User>)
    requires Distinct(UserIds(users))
    ensures PetsOf(JoinOne(p, users)) == if HasOwner(users)(p) then [p] else []
  {
    OwnersDistinct(users, p);
    var owners := Filter(users, IsOwnerOf(p));
    if HasOwner(users)(p) {
      var m :| 0 <= m < |users| && UserIds(users)[m] == p.owner;
      assert users[m] in owners;
    } else {
      forall m | 0 <= m < |users| ensures !IsOwnerOf(p)(users[m]) {
        assert UserIds(users)[m] == users[m].id;
      }
    }
  }

  lemma {:induction false} OwnersDistinct(users: seq<User>, p: Pet)
    requires Distinct(UserIds(users))
    ensures |Filter(users, IsOwnerOf(p))| <= 1
  {
    if |users| > 0 {
      var tail := users[1..];
      assert UserIds(tail) == UserIds(users)[1..];
      OwnersDistinct(tail, p);
      if IsOwnerOf(p)(users[0]) {
        forall m | 0 <= m < |tail| ensures !IsOwnerOf(p)(tail[m]) {
          assert UserIds(users)[m + 1] == tail[m].id && UserIds(users)[0] == users[0].id;
        }
      }
    }
  }

  lemma PetsOfAppend(a: seq<Joined>, b: seq<Joined>)
    ensures PetsOf(a + b) == PetsOf(a) + PetsOf(b)
  {
  }

  /** With distinct user identifiers, `readAll` lists each pet that has an
      owner exactly once, in store order, and drops every pet without one. */
  lemma {:induction false} ReadAllListsOwnedPets(pets: seq<Pet>, users: seq<User>)
    requires Distinct(UserIds(users))
    ensures PetsOf(ReadAll(pets, users)) == Filter(pets, HasOwner(users))
  {
    if |pets| > 0 {
      ReadAllListsOwnedPets(pets[1..], users);
      JoinOneAtMostOne(pets[0], users);
      PetsOfAppend(JoinOne(pets[0], users), ReadAll(pets[1..], users));
    }
  }

  function GetOnePet(pets: seq<Pet>, users: seq<User>, id: Id): (r: Result<Joined>)
    ensures r.Ok? ==> && r.value.pet in pets && r.value.pet.id == id
                      && r.value.owner in users && r.value.owner.id == r.value.pet.owner
    ensures r.Err? ==> r.error == Fail(404, PetNotFound)
    ensures r.Err? <==> forall k :: 0 <= k < |pets| && pets[k].id == id ==> pets[k].owner !in UserIds(users)
  {
    var matched := Filter(pets, PetHasId(id));
    var rows := ReadAll(matched, users);
    assert forall k :: 0 <= k < |pets| && pets[k].id == id && pets[k].owner in UserIds(users) ==> |rows| > 0 by {
      forall k | 0 <= k < |pets| && pets[k].id == id && pets[k].owner in UserIds(users) ensures |rows| > 0 {
        var m :| 0 <= m < |users| && UserIds(users)[m] == pets[k].owner;
        assert Joined(pets[k], users[m]) in rows;
      }
    }
    if |rows| > 0 then
      assert rows[0] in rows;
      var p := rows[0].pet;
      var u := rows[0].owner;
      assert u in users;
      var m :| 0 <= m < |users| && users[m] == u;
      assert UserIds(users)[m] == p.owner;
      Ok(rows[0])
    else
      Err(Fail(404, PetNotFound))
  }

  // ---------------------------------------------------------------------------
  // filterPets
  // ---------------------------------------------------------------------------

  /** The `filterOptions` object: a field appears exactly when its path
      parameter is not `-`. */
  datatype Query = Query(petType: Option<string>, age: Option<string>,
                         gender: Option<string>, color: Option<string>)

  function Constraint(param: string): Option<string> {
    if param == NoFilter then None else Some(param)
  }

  function FilterOptions(petType: string, age: string, gender: string, color: string): Query {
    Query(Constraint(petType), Constraint(age), Constraint(gender), Constraint(color))
  }

  /** The AND of equalities `find(filterOptions)` evaluates. */
  predicate Satisfies(q: Query, p: Pet) {
    && (q.petType.Some? ==> p.petType == q.petType.value)
    && (q.age.Some? ==> p.age == q.age.value)
    && (q.gender.Some? ==> p.gender == q.gender.value)
    && (q.color.Some? ==> p.color == q.color.value)
  }

  function Matching(q: Query): Pet -> bool {
    (p: Pet) => Satisfies(q, p)
  }

  function FilterPets(pets: seq<Pet>, petType: string, age: string, gender: string, color: string): (r: seq<Pet>)
    ensures forall p :: p in r <==>
              && p in pets
              && (petType != NoFilter ==> p.petType == petType)
              && (age != NoFilter ==> p.age == age)
              && (gender != NoFilter ==> p.gender == gender)
              && (color != NoFilter ==> p.color == color)
    ensures petType == NoFilter && age == NoFilter && gender == NoFilter && color == NoFilter ==> r == pets
  {
    Filter(pets, Matching(FilterOptions(petType, age, gender, color)))
  }

  /** Query `strict` constrains at least every field `loose` constrains, to
      the same value. */
  predicate Narrower(strict: Query, loose: Query) {
    && (loose.petType.Some? ==> strict.petType == loose.petType)
    && (loose.age.Some? ==> strict.age == loose.age)
    && (loose.gender.Some? ==> strict.gender == loose.gender)
    && (loose.color.Some? ==> strict.color == loose.color)
  }

  /** Adding constraints never grows the answer: the stricter query's result
      is the looser query's result filtered again, so a sub-list of it. */
  lemma FilterPetsNarrowing(pets: seq<Pet>, t1: string, a1: string, g1: string, c1: string,
                            t2: string, a2: string, g2: string, c2: string)
    requires Narrower(FilterOptions(t2, a2, g2, c2), FilterOptions(t1, a1, g1, c1))
    ensures FilterPets(pets, t2, a2, g2, c2)
              == Filter(FilterPets(pets, t1, a1, g1, c1), Matching(FilterOptions(t2, a2, g2, c2)))
    ensures |FilterPets(pets, t2, a2, g2, c2)| <= |FilterPets(pets, t1, a1, g1, c1)|
  {
    FilterNarrowing(pets, Matching(FilterOptions(t1, a1, g1, c1)), Matching(FilterOptions(t2, a2, g2, c2)));
  }

  // ---------------------------------------------------------------------------
  // addPet
  // ---------------------------------------------------------------------------

  /** The body fields `addPet` copies; `None` is a field that was not sent. */
  datatype PetBody = PetBody(name: Option<string>, breed: Option<string>, age: Option<string>,
                             gender: Option<string>, color: Option<string>,
                             petType: Option<string>, pictures: Option<seq<string>>)

  /** A body the Pets validator admits once status, request and owner are added. */
  predicate PetBodyAdmissible(b: PetBody) {
    && b.name.Some? && b.breed.Some? && b.age.Some? && b.gender.Some? && b.color.Some?
    && b.petType.Some? && b.pictures.Some?
    && b.age.value in Ages && b.gender.value in Genders && b.petType.value in PetTypes
  }

  /** Appending a pet with a fresh identifier that the validator admits keeps
      the collection invariant. */
  lemma PetsOkAppend(pets: seq<Pet>, p: Pet)
    requires ValidPet(p) && p.id == FreshId(PetIds(pets))
    ensures PetsOk(pets) ==> PetsOk(pets + [p])
  {
    assert PetIds(pets + [p]) == PetIds(pets) + [p.id];
    if PetsOk(pets) {
      DistinctAppendFresh(PetIds(pets));
    }
  }

  /** `insertedCount` is what the driver reports for the insert. */
  function AddPet(pets: seq<Pet>, caller: Users.Claims, b: PetBody, insertedCount: nat): (out: Reply<seq<Pet>, Pet>)
    ensures !PetBodyAdmissible(b) ==> out == Reply(pets, Err(DocumentInvalid))
    ensures PetBodyAdmissible(b) ==>
              && |out.store| == |pets| + 1 && out.store[..|pets|] == pets
              && var p := out.store[|pets|];
              && (forall k :: 0 <= k < |pets| ==> pets[k].id < p.id)
              && p == Pet(p.id, b.name.value, b.breed.value, b.age.value, b.gender.value,
                          b.color.value, b.petType.value, b.pictures.value, caller.id, false, false)
              && ValidPet(p)
              && out.result == if insertedCount == 1 then Ok(p) else Err(Fail(400, InsertPetFailed))
    ensures PetsOk(pets) ==> PetsOk(out.store)
  {
    var doc := PetDoc(b.name, b.breed, b.age, b.gender, b.color, b.petType, b.pictures,
                      Some(caller.id), Some(false), Some(false));
    if !ValidPetDoc(doc) then
      Reply(pets, Err(DocumentInvalid))
    else
      var p := ToPet(FreshId(PetIds(pets)), doc);
      assert forall k :: 0 <= k < |pets| ==> pets[k].id == PetIds(pets)[k];
      assert (pets + [p])[..|pets|] == pets;
      var result := if insertedCount != 1 then Err(Fail(400, InsertPetFailed)) else Ok(p);
      PetsOkAppend(pets, p);
      Reply(pets + [p], result)
  }

  /** A request without a body sends no field at all; the validator refuses it. */
  lemma AddPetWithoutBody(pets: seq<Pet>, caller: Users.Claims, insertedCount: nat)
    ensures AddPet(pets, caller, PetBody(None, None, None, None, None, None, None), insertedCount)
              == Reply(pets, Err(DocumentInvalid))
  {
  }

  // ---------------------------------------------------------------------------
  // requestAdoption
  // ---------------------------------------------------------------------------

  /** `pet_detail.Owner`: absent, or an object whose `email` may be absent. */
  datatype OwnerRef = NoOwner | Owner(email: Option<string>)

  /** The client-supplied `pet_detail`: the pet's `_id` and `name` and its
      `Owner`, none of them checked against the store. */
  datatype PetDetail = PetDetail(id: Id, name: string, owner: OwnerRef)

  /** `recipient` is `None` when the handler passes an undefined address on. */
  datatype Mail = Mail(recipient: Option<string>, subject: string, message: string)

  datatype Delivery = Delivery(message: string, pet: Pet, mail: Mail)

  /** Sets `request` on the first pet with the detail's id. `rendered` is
      `generateMessage(form_data)`. A stored name that is empty is falsy, so
      that pet is flagged but the reply is 404 "Pet Not Found". Without an
      `Owner` in the detail, reading its email fails after the write. An
      `Owner` without `email` still gets the 200 reply, and the mail carries an
      undefined recipient. */
  function RequestAdoption(pets: seq<Pet>, detail: PetDetail, rendered: string): (out: Reply<seq<Pet>, Delivery>)
    ensures NoneAccepted(pets, PetHasId(detail.id)) ==> out == Reply(pets, Err(NullDereference))
    ensures |out.store| == |pets|
    ensures forall k :: 0 <= k < |pets| ==> out.store[k] == pets[k].(request := out.store[k].request)
    ensures forall k :: 0 <= k < |pets| && out.store[k] != pets[k] ==>
              IsFirst(pets, PetHasId(detail.id), k) && out.store[k].request
    ensures forall k: nat :: IsFirst(pets, PetHasId(detail.id), k) && ValidPet(pets[k]) ==>
              && out.store == pets[k := pets[k].(request := true)]
              && out.result == if pets[k].name == "" then Err(Fail(404, RequestPetNotFound))
                               else if detail.owner.NoOwner? then Err(NullDereference)
                               else Ok(Delivery(FormDelivered, pets[k].(request := true),
                                                Mail(detail.owner.email, MailSubjectPrefix + detail.name, rendered)))
    ensures out.result.Err? && out.result.error == DocumentInvalid ==> out.store == pets
    ensures PetsOk(pets) ==> PetsOk(out.store)
  {
    match FirstIndex(pets, PetHasId(detail.id))
    case None => Reply(pets, Err(NullDereference))
    case Some(k) =>
      var updated := pets[k].(request := true);
      if !ValidPet(updated) then
        Reply(pets, Err(DocumentInvalid))
      else
        assert PetIds(pets[k := updated]) == PetIds(pets);
        if updated.name == "" then
          Reply(pets[k := updated], Err(Fail(404, RequestPetNotFound)))
        else
          match detail.owner
          case NoOwner => Reply(pets[k := updated], Err(NullDereference))
          case Owner(recipient) =>
            Reply(pets[k := updated],
                  Ok(Delivery(FormDelivered, updated, Mail(recipient, MailSubjectPrefix + detail.name, rendered))))
  }

  // ---------------------------------------------------------------------------
  // getPetByOwner
  // ---------------------------------------------------------------------------

  function OwnedBy(id: Id): Pet -> bool {
    (p: Pet) => p.owner == id
  }

  function GetPetByOwner(pets: seq<Pet>, caller: Users.Claims): (r: seq<Pet>)
    ensures forall p :: p in r <==> p in pets && p.owner == caller.id
    ensures forall p :: multiset(r)[p] == if p.owner == caller.id then multiset(pets)[p] else 0
  {
    forall p ensures multiset(Filter(pets, OwnedBy(caller.id)))[p]
                       == if p.owner == caller.id then multiset(pets)[p] else 0 {
      FilterCounts(pets, OwnedBy(caller.id), p);
    }
    Filter(pets, OwnedBy(caller.id))
  }

  // ---------------------------------------------------------------------------
  // updatePet (no ownership check: the caller is not an input)
  // ---------------------------------------------------------------------------

  datatype PetFields = PetFields(name: Option<string>, breed: Option<string>, age: Option<string>,
                                 gender: Option<string>, color: Option<string>, petType: Option<string>)

  predicate FieldsAdmissible(f: PetFields) {
    && f.name.Some? && f.breed.Some? && f.age.Some? && f.gender.Some? && f.color.Some? && f.petType.Some?
    && f.age.value in Ages && f.gender.value in Genders && f.petType.value in PetTypes
  }

  function UpdatePet(pets: seq<Pet>, id: Id, f: PetFields): (out: Reply<seq<Pet>, Pet>)
    ensures out.result == Err(Fail(400, UpdateFailed)) <==> NoneAccepted(pets, PetHasId(id))
    ensures NoneAccepted(pets, PetHasId(id)) ==> out.store == pets
    ensures |out.store| == |pets|
    ensures forall k :: 0 <= k < |pets| ==>
              out.store[k] == pets[k].(name := out.store[k].name, breed := out.store[k].breed,
                                       age := out.store[k].age, gender := out.store[k].gender,
                                       color := out.store[k].color, petType := out.store[k].petType)
    ensures forall k :: 0 <= k < |pets| && out.store[k] != pets[k] ==> IsFirst(pets, PetHasId(id), k)
    ensures !NoneAccepted(pets, PetHasId(id)) ==> (out.result.Ok? <==> FieldsAdmissible(f))
    ensures out.result.Err? ==> out.store == pets
    ensures out.result.Ok? ==>
              var p := out.result.value;
              && p.id == id && p in out.store
              && Some(p.name) == f.name && Some(p.breed) == f.breed && Some(p.age) == f.age
              && Some(p.gender) == f.gender && Some(p.color) == f.color && Some(p.petType) == f.petType
    ensures PetsOk(pets) ==> PetsOk(out.store)
  {
    match FirstIndex(pets, PetHasId(id))
    case None => Reply(pets, Err(Fail(400, UpdateFailed)))
    case Some(k) =>
      var current := pets[k];
      var doc := PetDocOf(current).(name := f.name, breed := f.breed, age := f.age,
                                    gender := f.gender, color := f.color, petType := f.petType);
      if !ValidPetDoc(doc) then
        Reply(pets, Err(DocumentInvalid))
      else
        var p := ToPet(current.id, doc);
        assert PetIds(pets[k := p]) == PetIds(pets);
        Reply(pets[k := p], Ok(p))
  }

  // ---------------------------------------------------------------------------
  // adoptPet
  // ---------------------------------------------------------------------------

  /** Both are 200 replies carrying the updated pet; `Canceled` travels the
      handler's error path with status 200. */
  datatype Adoption = Adopted(pet: Pet) | Canceled(pet: Pet) {
    function Message(): string {
      match this
      case Adopted(_) => AdoptionSucceeded
      case Canceled(_) => AdoptionCanceled
    }
  }

  /** Sets `status` to the body's value (`None`: not sent, written as null). */
  function AdoptPet(pets: seq<Pet>, id: Id, status: Option<bool>): (out: Reply<seq<Pet>, Adoption>)
    ensures NoneAccepted(pets, PetHasId(id)) ==> out == Reply(pets, Err(NullDereference))
    ensures |out.store| == |pets|
    ensures forall k :: 0 <= k < |pets| ==> out.store[k] == pets[k].(status := out.store[k].status)
    ensures forall k :: 0 <= k < |pets| && out.store[k] != pets[k] ==> IsFirst(pets, PetHasId(id), k)
    ensures out.result.Err? ==> out.store == pets
    ensures forall k: nat :: IsFirst(pets, PetHasId(id), k) ==>
              if status.Some? && ValidPet(pets[k]) then
                var p := pets[k].(status := status.value);
                && out.store == pets[k := p]
                && out.result == Ok(if status.value then Adopted(p) else Canceled(p))
              else out.result == Err(DocumentInvalid)
    ensures out.result.Ok? ==>
              out.result.value.Message() == if status == Some(true) then AdoptionSucceeded else AdoptionCanceled
    ensures PetsOk(pets) ==> PetsOk(out.store)
  {
    match FirstIndex(pets, PetHasId(id))
    case None => Reply(pets, Err(NullDereference))
    case Some(k) =>
      match status
      case None => Reply(pets, Err(DocumentInvalid))
      case Some(s) =>
        var p := pets[k].(status := s);
        if !ValidPet(p) then
          Reply(pets, Err(DocumentInvalid))
        else
          assert PetIds(pets[k := p]) == PetIds(pets);
          Reply(pets[k := p], Ok(if s then Adopted(p) else Canceled(p)))
  }

  // ---------------------------------------------------------------------------
  // deletePet
  // ---------------------------------------------------------------------------

  function DeletePet(pets: seq<Pet>, id: Id): (out: Reply<seq<Pet>, string>)
    ensures out.result.Ok? <==> !NoneAccepted(pets, PetHasId(id))
    ensures out.result.Ok? ==> out.result.value == DeleteSucceeded
    ensures out.result.Err? ==> out == Reply(pets, Err(Fail(404, PetNotFound)))
    ensures forall k: nat :: IsFirst(pets, PetHasId(id), k) ==> out.store == pets[..k] + pets[k + 1..]
    ensures PetsOk(pets) ==> PetsOk(out.store)
  {
    match FirstIndex(pets, PetHasId(id))
    case None => Reply(pets, Err(Fail(404, PetNotFound)))
    case Some(k) =>
      var rest := pets[..k] + pets[k + 1..];
      assert PetIds(rest) == PetIds(pets)[..k] + PetIds(pets)[k + 1..];
      Reply(rest, Ok(DeleteSucceeded))
  }

  // ---------------------------------------------------------------------------
  // The pet lifecycle across handlers.
  // ---------------------------------------------------------------------------

  /** A created pet is found by `getOnePet` (not adopted, no request, owned by
      the caller) exactly when the caller's account exists: the inner join
      hides the pets of a caller whose user record is gone. */
  lemma AddThenGet(pets: seq<Pet>, users: seq<User>, caller: Users.Claims, b: PetBody, insertedCount: nat)
    requires PetBodyAdmissible(b)
    ensures var out := AddPet(pets, caller, b, insertedCount);
            var p := out.store[|pets|];
            var got := GetOnePet(out.store, users, p.id);
            && (got.Ok? <==> caller.id in UserIds(users))
            && (got.Ok? ==> got.value.pet == p && !p.status && !p.request && p.owner == caller.id)
  {
    var out := AddPet(pets, caller, b, insertedCount);
    var p := out.store[|pets|];
    assert out.store == pets + [p] by {
      assert out.store == out.store[..|pets|] + [p];
    }
  }

  /** Adopting a stored pet succeeds, and `getOnePet` then reads back the
      first pet with that id, now adopted, exactly when its owner exists. */
  lemma AdoptThenGet(pets: seq<Pet>, users: seq<User>, id: Id, k: nat)
    requires PetsOk(pets) && IsFirst(pets, PetHasId(id), k)
    ensures AdoptPet(pets, id, Some(true)).result.Ok?
    ensures var got := GetOnePet(AdoptPet(pets, id, Some(true)).store, users, id);
            && (got.Ok? <==> pets[k].owner in UserIds(users))
            && (got.Ok? ==> got.value.pet == pets[k].(status := true))
  {
    var out := AdoptPet(pets, id, Some(true));
    var p := pets[k].(status := true);
    assert out.store == pets[k := p];
    assert PetIds(out.store)[k] == id;
    forall j | 0 <= j < |out.store| && out.store[j].id == id ensures j == k {
      assert PetIds(out.store)[j] == id;
    }
    var got := GetOnePet(out.store, users, id);
    if got.Ok? {
      var q := got.value.pet;
      var j :| 0 <= j < |out.store| && out.store[j] == q;
    }
  }

  /** After a successful delete, `getOnePet` on that id answers 404. */
  lemma DeleteThenGet(pets: seq<Pet>, users: seq<User>, id: Id)
    requires Distinct(PetIds(pets))
    requires DeletePet(pets, id).result.Ok?
    ensures GetOnePet(DeletePet(pets, id).store, users, id) == Err(Fail(404, PetNotFound))
  {
    var k := FirstIndex(pets, PetHasId(id)).value;
    assert IsFirst(pets, PetHasId(id), k);
    var rest := DeletePet(pets, id).store;
    assert rest == pets[..k] + pets[k + 1..];
    forall j | 0 <= j < |rest| ensures rest[j].id != id {
      if j < k {
        assert rest[j] == pets[j];
      } else {
        assert rest[j] == pets[j + 1];
        assert PetIds(pets)[j + 1] == pets[j + 1].id && PetIds(pets)[k] == id;
      }
    }
  }

  /** A pet's position does not move under a write that keeps identifiers. */
  lemma FirstPetKept(pets: seq<Pet>, after: seq<Pet>, id: Id, k: nat)
    requires IsFirst(pets, PetHasId(id), k)
    requires |after| == |pets| && forall j :: 0 <= j < |pets| ==> after[j].id == pets[j].id
    ensures FirstIndex(after, PetHasId(id)) == Some(k)
  {
  }

  /** Sending the same edit twice leaves the store as one edit did. */
  lemma UpdatePetTwice(pets: seq<Pet>, id: Id, f: PetFields)
    ensures var once := UpdatePet(pets, id, f).store;
            UpdatePet(once, id, f).store == once
  {
    var once := UpdatePet(pets, id, f).store;
    if !NoneAccepted(pets, PetHasId(id)) {
      var k := FirstIndex(pets, PetHasId(id)).value;
      FirstPetKept(pets, once, id, k);
    }
  }

  /** A repeated adoption request flags nothing new. */
  lemma RequestAdoptionTwice(pets: seq<Pet>, detail: PetDetail, rendered: string)
    ensures var once := RequestAdoption(pets, detail, rendered).store;
            RequestAdoption(once, detail, rendered).store == once
  {
    var once := RequestAdoption(pets, detail, rendered).store;
    if !NoneAccepted(pets, PetHasId(detail.id)) {
      var k := FirstIndex(pets, PetHasId(detail.id)).value;
      FirstPetKept(pets, once, detail.id, k);
    }
  }

  /** Cancelling right after adopting a pet that was up for adoption restores
      the store. */
  lemma AdoptThenCancel(pets: seq<Pet>, id: Id)
    requires AdoptPet(pets, id, Some(true)).result.Ok?
    requires forall k: nat :: IsFirst(pets, PetHasId(id), k) ==> !pets[k].status
    ensures AdoptPet(AdoptPet(pets, id, Some(true)).store, id, Some(false)).store == pets
  {
    var adopted := AdoptPet(pets, id, Some(true)).store;
    var k := FirstIndex(pets, PetHasId(id)).value;
    assert IsFirst(pets, PetHasId(id), k);
    FirstPetKept(pets, adopted, id, k);
    assert adopted[k := adopted[k].(status := false)] == pets;
  }

  /** A created pet joins the end of its owner's list; nothing else changes in it. */
  lemma AddThenOwnerList(pets: seq<Pet>, caller: Users.Claims, b: PetBody, insertedCount: nat)
    requires PetBodyAdmissible(b)
    ensures var out := AddPet(pets, caller, b, insertedCount);
            GetPetByOwner(out.store, caller) == GetPetByOwner(pets, caller) + [out.store[|pets|]]
  {
    var out := AddPet(pets, caller, b, insertedCount);
    var p := out.store[|pets|];
    assert out.store == pets + [p] by {
      assert out.store == out.store[..|pets|] + [p];
    }
    FilterAppend(pets, [p], OwnedBy(caller.id));
    assert Filter([p], OwnedBy(caller.id)) == [p];
  }
}

=== FILE: schema.dfy ===
/** The three collections of config/db-setup.js and their `$jsonSchema`
    validators.

    A *document* is what a handler hands to the store: every field may be
    missing or null (`None`), because a request body field that was not sent
    is `undefined`, which the driver writes as null. The validator admits a
    document only when every required field is present with the right type
    and every enum/pattern constraint holds; an admitted document becomes a
    plain *record* (`User`, `Pet`, `Favorite`), which is what a collection holds. */
module Schema {
  import opened Store

  // ---------------------------------------------------------------------------
  // The email pattern of the Users validator:
  //   ^[a-zA-Z0-9.!#$%&'*+/=?^_`{|}~-]+@[a-zA-Z0-9-]+(?:.[a-zA-Z0-9-]+)*$
  // The `.` in the repeated group is not escaped, so it stands for ANY
  // character other than a line break, not only a dot.
  // ---------------------------------------------------------------------------

  predicate IsAlnum(c: char) {
    ('a' <= c <= 'z') || ('A' <= c <= 'Z') || ('0' <= c <= '9')
  }

  const LocalSymbols: set<char> :=
    {'.', '!', '#', '$', '%', '&', '\'', '*', '+', '/', '=', '?', '^', '_', '`', '{', '|', '}', '~', '-'}

  /** A character of the local part's class. */
  predicate IsLocalChar(c: char) {
    IsAlnum(c) || c in LocalSymbols
  }

  /** A character of the `[a-zA-Z0-9-]` label class. */
  predicate IsLabelChar(c: char) {
    IsAlnum(c) || c == '-'
  }

  /** What the regular expression's `.` matches. */
  predicate IsAnyChar(c: char) {
    c != '\n'
  }

  predicate IsAt(c: char) {
    c == '@'
  }

  /** `[local-class]+` */
  predicate LocalPart(t: string) {
    |t| > 0 && forall k :: 0 <= k < |t| ==> IsLocalChar(t[k])
  }

  /** `[a-zA-Z0-9-]+` */
  predicate Label(t: string) {
    |t| > 0 && forall k :: 0 <= k < |t| ==> IsLabelChar(t[k])
  }

  /** `[a-zA-Z0-9-]+(?:.[a-zA-Z0-9-]+)*` read as a grammar: a label, or a label,
      one separator character and again a domain. */
  ghost predicate DomainGrammar(d: string)
    decreases |d|
  {
    || Label(d)
    || exists k :: 0 < k < |d| && Label(d[..k]) && IsAnyChar(d[k]) && DomainGrammar(d[k + 1..])
  }

  /** The same language described character by character: it begins and ends
      with a label character, holds no line break, and no two neighbouring
      characters are both outside the label class. */
  predicate DomainShape(d: string) {
    && |d| > 0
    && IsLabelChar(d[0])
    && IsLabelChar(d[|d| - 1])
    && (forall k :: 0 <= k < |d| ==> IsAnyChar(d[k]))
    && (forall k :: 0 <= k < |d| - 1 ==> IsLabelChar(d[k]) || IsLabelChar(d[k + 1]))
  }

  predicate IsSeparator(c: char) {
    !IsLabelChar(c)
  }

  /** A label followed by a separator and a well-shaped rest is well shaped. */
  lemma DomainShapeGlue(d: string, k: nat)
    requires 0 < k < |d| && Label(d[..k]) && IsAnyChar(d[k]) && DomainShape(d[k + 1..])
    ensures DomainShape(d)
  {
    var tail := d[k + 1..];
    assert d[..k][0] == d[0];
    assert d[|d| - 1] == tail[|tail| - 1];
    forall j | 0 <= j < |d| ensures IsAnyChar(d[j]) {
      if j < k { assert d[j] == d[..k][j]; }
      else if j > k { assert d[j] == tail[j - k - 1]; }
    }
    forall j | 0 <= j < |d| - 1 ensures IsLabelChar(d[j]) || IsLabelChar(d[j + 1]) {
      if j < k { assert d[j] == d[..k][j]; }
      else if j == k { assert d[j + 1] == tail[0]; }
      else { assert d[j] == tail[j - k - 1] && d[j + 1] == tail[j - k]; }
    }
  }

  /** A well-shaped domain stays well shaped after dropping a prefix that ends
      just before a label character. */
  lemma DomainShapeSuffix(d: string, k: nat)
    requires DomainShape(d) && k < |d| && IsLabelChar(d[k])
    ensures DomainShape(d[k..])
  {
    var tail := d[k..];
    assert tail[|tail| - 1] == d[|d| - 1];
    forall j | 0 <= j < |tail| ensures IsAnyChar(tail[j]) {
      assert tail[j] == d[j + k];
    }
    forall j | 0 <= j < |tail| - 1 ensures IsLabelChar(tail[j]) || IsLabelChar(tail[j + 1]) {
      assert tail[j] == d[j + k] && tail[j + 1] == d[j + k + 1];
    }
  }

  /** A well-shaped domain splits at its first separator into a label and a
      well-shaped rest. */
  lemma DomainShapeSplit(d: string, k: nat)
    requires DomainShape(d) && FirstIndex(d, IsSeparator) == Some(k)
    ensures 0 < k < |d| - 1 && Label(d[..k]) && IsAnyChar(d[k]) && DomainShape(d[k + 1..])
  {
    assert IsSeparator(d[k]);
    assert k + 1 < |d|;
    assert IsLabelChar(d[k]) || IsLabelChar(d[k + 1]);
    DomainShapeSuffix(d, k + 1);
    forall j | 0 <= j < k ensures IsLabelChar(d[..k][j]) {
      assert d[..k][j] == d[j];
      assert !IsSeparator(d[j]);
    }
  }

  lemma {:induction false} DomainGrammarHasShape(d: string)
    requires DomainGrammar(d)
    ensures DomainShape(d)
    decreases |d|
  {
    if !Label(d) {
      var k :| 0 < k < |d| && Label(d[..k]) && IsAnyChar(d[k]) && DomainGrammar(d[k + 1..]);
      DomainGrammarHasShape(d[k + 1..]);
      DomainShapeGlue(d, k);
    }
  }

  lemma {:induction false} DomainShapeHasGrammar(d: string)
    requires DomainShape(d)
    ensures DomainGrammar(d)
    decreases |d|
  {
    match FirstIndex(d, IsSeparator)
    case None =>
      assert Label(d);
    case Some(k) =>
      DomainShapeSplit(d, k);
      DomainShapeHasGrammar(d[k + 1..]);
      assert Label(d[..k]) && IsAnyChar(d[k]) && DomainGrammar(d[k + 1..]);
  }

  /** The character-level description and the grammar define the same language. */
  lemma DomainShapeIsGrammar(d: string)
    ensures DomainShape(d) <==> DomainGrammar(d)
  {
    if DomainShape(d) { DomainShapeHasGrammar(d); }
    if DomainGrammar(d) { DomainGrammarHasShape(d); }
  }

  /** The pattern as the validator evaluates it: the local part runs up to the
      first `@` (the local class holds no `@`), the rest is a domain. */
  predicate EmailPattern(s: string) {
    match FirstIndex(s, IsAt)
    case None => false
    case Some(i) => LocalPart(s[..i]) && DomainShape(s[i + 1..])
  }

  /** The pattern read as a regular expression: SOME `@` splits the string into
      a local part and a domain. */
  ghost predicate EmailGrammar(s: string) {
    exists i :: 0 <= i < |s| && s[i] == '@' && LocalPart(s[..i]) && DomainGrammar(s[i + 1..])
  }

  /** Only the first `@` can end a local part. */
  lemma LocalPartEndsAtFirstAt(s: string, i: nat, j: nat)
    requires FirstIndex(s, IsAt) == Some(i)
    requires j < |s| && s[j] == '@' && LocalPart(s[..j])
    ensures i == j
  {
    forall k | 0 <= k < j ensures !IsAt(s[k]) {
      assert s[..j][k] == s[k];
      LocalCharIsNotAt(s[k]);
    }
  }

  lemma LocalCharIsNotAt(c: char)
    requires IsLocalChar(c)
    ensures !IsAt(c)
  {
  }

  lemma EmailPatternIsGrammar(s: string)
    ensures EmailPattern(s) <==> EmailGrammar(s)
  {
    match FirstIndex(s, IsAt)
    case None =>
    case Some(i) =>
      DomainShapeIsGrammar(s[i + 1..]);
      if EmailGrammar(s) {
        var j :| 0 <= j < |s| && s[j] == '@' && LocalPart(s[..j]) && DomainGrammar(s[j + 1..]);
        LocalPartEndsAtFirstAt(s, i, j);
      }
  }

  /** A local part, `@`, and a domain of one or two labels match; the
      separator between the labels may be ANY character but a line break,
      `@` and `,` included, because the pattern's `.` is not escaped. */
  lemma EmailPatternAdmits(local: string, first: string, sep: char, last: string)
    requires LocalPart(local) && Label(first) && Label(last) && IsAnyChar(sep)
    ensures EmailPattern(local + "@" + first)
    ensures EmailPattern(local + "@" + first + [sep] + last)
  {
    DomainShapeOfLabel(first);
    DomainShapeOfLabel(last);
    var d := first + [sep] + last;
    assert d[..|first|] == first && d[|first|] == sep && d[|first| + 1..] == last;
    DomainShapeGlue(d, |first|);
    EmailPatternSplit(local, first);
    assert local + "@" + first + [sep] + last == local + "@" + d;
    EmailPatternSplit(local, d);
  }

  lemma DomainShapeOfLabel(t: string)
    requires Label(t)
    ensures DomainShape(t)
  {
  }

  /** A local part, `@` and a well-shaped domain match. */
  lemma EmailPatternSplit(local: string, d: string)
    requires LocalPart(local) && DomainShape(d)
    ensures EmailPattern(local + "@" + d)
  {
    var s := local + "@" + d;
    forall k | 0 <= k < |local| ensures !IsAt(s[k]) {
      assert s[k] == local[k];
      LocalCharIsNotAt(local[k]);
    }
    assert IsAt(s[|local|]);
    assert s[..|local|] == local && s[|local| + 1..] == d;
  }

  /** A string whose last character is outside the label class never matches
      (`x@mail.` is refused). */
  lemma EmailPatternRejectsTrailingSeparator(s: string)
    requires |s| > 0 && !IsLabelChar(s[|s| - 1])
    ensures !EmailPattern(s)
  {
    match FirstIndex(s, IsAt)
    case None =>
    case Some(i) =>
      var d := s[i + 1..];
      if |d| > 0 {
        assert d[|d| - 1] == s[|s| - 1];
      }
  }

  // ---------------------------------------------------------------------------
  // Users: username, email, password, address and phone are required strings,
  // and the email must match the pattern.
  // ---------------------------------------------------------------------------

  datatype User = User(id: Id, username: string, email: string, password: string,
                       address: string, phone: string)

  datatype UserDoc = UserDoc(username: Option<string>, email: Option<string>,
                             password: Option<string>, address: Option<string>,
                             phone: Option<string>)

  predicate ValidUserDoc(d: UserDoc) {
    && d.username.Some? && d.email.Some? && d.password.Some?
    && d.address.Some? && d.phone.Some?
    && EmailPattern(d.email.value)
  }

  /** What remains to check of a stored user: every field is present by type. */
  predicate ValidUser(u: User) {
    EmailPattern(u.email)
  }

  /** A stored user seen as the document a `$set` would start from. */
  function UserDocOf(u: User): (d: UserDoc)
    ensures ValidUserDoc(d) <==> ValidUser(u)
    ensures d.email == Some(u.email) && d.password == Some(u.password)
  {
    UserDoc(Some(u.username), Some(u.email), Some(u.password), Some(u.address), Some(u.phone))
  }

  /** The record an admitted document becomes under the identifier `id`. */
  function ToUser(id: Id, d: UserDoc): (u: User)
    requires ValidUserDoc(d)
    ensures u.id == id && ValidUser(u) && UserDocOf(u) == d
  {
    User(id, d.username.value, d.email.value, d.password.value, d.address.value, d.phone.value)
  }

  function UserIds(users: seq<User>): seq<Id> {
    seq(|users|, k requires 0 <= k < |users| => users[k].id)
  }

  /** What the Users collection always satisfies: distinct identifiers, and
      only records its validator admitted. Email uniqueness is NOT part of it:
      no index enforces it and a profile edit can break it. */
  predicate UsersOk(users: seq<User>) {
    Distinct(UserIds(users)) && forall k :: 0 <= k < |users| ==> ValidUser(users[k])
  }

  // ---------------------------------------------------------------------------
  // Pets: all ten fields are required; age, gender and type are enums;
  // pictures is an array; status and request are booleans.
  // ---------------------------------------------------------------------------

  const Ages: seq<string> := ["baby", "young", "adult", "senior"]
  const Genders: seq<string> := ["male", "female"]
  const PetTypes: seq<string> := ["dog", "cat"]

  /** A pet record; `petType` is the `type` field, `owner` is `user_id`,
      `status` is true once adopted, `request` true once a request was sent. */
  datatype Pet = Pet(id: Id, name: string, breed: string, age: string, gender: string,
                     color: string, petType: string, pictures: seq<string>,
                     owner: Id, status: bool, request: bool)

  datatype PetDoc = PetDoc(name: Option<string>, breed: Option<string>, age: Option<string>,
                           gender: Option<string>, color: Option<string>,
                           petType: Option<string>, pictures: Option<seq<string>>,
                           owner: Option<Id>, status: Option<bool>, request: Option<bool>)

  predicate ValidPetDoc(d: PetDoc) {
    && d.name.Some? && d.breed.Some? && d.age.Some? && d.gender.Some? && d.color.Some?
    && d.petType.Some? && d.pictures.Some? && d.owner.Some? && d.status.Some? && d.request.Some?
    && d.age.value in Ages && d.gender.value in Genders && d.petType.value in PetTypes
  }

  /** What remains to check of a stored pet: the three enums. */
  predicate ValidPet(p: Pet) {
    p.age in Ages && p.gender in Genders && p.petType in PetTypes
  }

  function PetDocOf(p: Pet): (d: PetDoc)
    ensures ValidPetDoc(d) <==> ValidPet(p)
    ensures d.status == Some(p.status) && d.request == Some(p.request) && d.owner == Some(p.owner)
  {
    PetDoc(Some(p.name), Some(p.breed), Some(p.age), Some(p.gender), Some(p.color),
           Some(p.petType), Some(p.pictures), Some(p.owner), Some(p.status), Some(p.request))
  }

  function ToPet(id: Id, d: PetDoc): (p: Pet)
    requires ValidPetDoc(d)
    ensures p.id == id && ValidPet(p) && PetDocOf(p) == d
  {
    Pet(id, d.name.value, d.breed.value, d.age.value, d.gender.value, d.color.value,
        d.petType.value, d.pictures.value, d.owner.value, d.status.value, d.request.value)
  }

  function PetIds(pets: seq<Pet>): seq<Id> {
    seq(|pets|, k requires 0 <= k < |pets| => pets[k].id)
  }

  /** What the Pets collection always satisfies. */
  predicate PetsOk(pets: seq<Pet>) {
    Distinct(PetIds(pets)) && forall k :: 0 <= k < |pets| ==> ValidPet(pets[k])
  }

  // ---------------------------------------------------------------------------
  // Favorites: pet_id and user_id are required object ids.
  // ---------------------------------------------------------------------------

  datatype Favorite = Favorite(id: Id, petId: Id, userId: Id)

  datatype FavoriteDoc = FavoriteDoc(petId: Option<Id>, userId: Option<Id>)

  predicate ValidFavoriteDoc(d: FavoriteDoc) {
    d.petId.Some? && d.userId.Some?
  }

  function FavoriteDocOf(f: Favorite): (d: FavoriteDoc)
    ensures ValidFavoriteDoc(d)
  {
    FavoriteDoc(Some(f.petId), Some(f.userId))
  }

  function ToFavorite(id: Id, d: FavoriteDoc): (f: Favorite)
    requires ValidFavoriteDoc(d)
    ensures f.id == id && FavoriteDocOf(f) == d
  {
    Favorite(id, d.petId.value, d.userId.value)
  }
}

=== FILE: store.dfy ===
/** The in-memory stand-in for a MongoDB collection: a sequence of records in
    natural (insertion) order, with the query primitives the controllers use.
    - `Filter` is `find(query).toArray()`: every record the query matches, in order.
    - `FirstIndex` is `findOne` / the target of `findOneAndUpdate` / `deleteOne`:
      the first record in natural order that matches.
    - `FreshId` is the `_id` the driver assigns on insert: one no record holds yet.
    Outcomes of a handler are tagged values instead of HTTP responses. */
module Store {

  datatype Option<T> = None | Some(value: T)

  /** A record identifier (an ObjectID in the store). */
  type Id = nat

  /** Why a handler did not produce its success reply. */
  datatype Failure =
    | Fail(status: nat, message: string)  // an error object the handler builds itself
    | DocumentInvalid                     // the collection's $jsonSchema validator refused the write
    | NullDereference                     // a field read on null or undefined: the `value` of a findOneAndUpdate
                                          // that matched nothing, or an absent `pet_detail.Owner`

  datatype Result<T> = Ok(value: T) | Err(error: Failure)

  /** A handler's effect: the collection after the call and what it answers. */
  datatype Reply<S, T> = Reply(store: S, result: Result<T>)

  /** `find`: the records `f` accepts, in their original order. */
  function Filter<T(!new)>(s: seq<T>, f: T -> bool): (r: seq<T>)
    ensures |r| <= |s|
    ensures forall x :: x in r <==> x in s && f(x)
    ensures (forall k :: 0 <= k < |s| ==> f(s[k])) ==> r == s
    ensures (forall k :: 0 <= k < |s| ==> !f(s[k])) ==> r == []
  {
    if |s| == 0 then []
    else (if f(s[0]) then [s[0]] else []) + Filter(s[1..], f)
  }

  /** `find` distributes over a store that grew by appending. */
  lemma {:induction false} FilterAppend<T(!new)>(s: seq<T>, t: seq<T>, f: T -> bool)
    ensures Filter(s + t, f) == Filter(s, f) + Filter(t, f)
  {
    if |s| == 0 {
      assert s + t == t;
    } else {
      assert (s + t)[1..] == s[1..] + t;
      FilterAppend(s[1..], t, f);
    }
  }

  /** Counting version of `Filter`'s contract: each record is kept with its full
      multiplicity when `f` accepts it and dropped entirely otherwise. */
  lemma {:induction false} FilterCounts<T(!new)>(s: seq<T>, f: T -> bool, x: T)
    ensures multiset(Filter(s, f))[x] == if f(x) then multiset(s)[x] else 0
  {
    if |s| > 0 {
      FilterCounts(s[1..], f, x);
      assert s == [s[0]] + s[1..];
      assert multiset(s) == multiset([s[0]]) + multiset(s[1..]);
    }
  }

  /** Narrowing a query never adds results: filtering by a stricter predicate
      equals filtering the looser query's result again, so it is a sub-list of it. */
  lemma {:induction false} FilterNarrowing<T(!new)>(s: seq<T>, loose: T -> bool, strict: T -> bool)
    requires forall x :: strict(x) ==> loose(x)
    ensures Filter(s, strict) == Filter(Filter(s, loose), strict)
    ensures |Filter(s, strict)| <= |Filter(s, loose)|
  {
    if |s| > 0 {
      FilterNarrowing(s[1..], loose, strict);
      var rest := Filter(s[1..], loose);
      var head := if strict(s[0]) then [s[0]] else [];
      assert Filter(s, strict) == head + Filter(s[1..], strict);
      if loose(s[0]) {
        var kept := [s[0]] + rest;
        assert Filter(s, loose) == kept;
        assert kept[0] == s[0] && kept[1..] == rest;
        assert Filter(kept, strict) == head + Filter(rest, strict);
      } else {
        assert Filter(s, loose) == rest;
      }
    }
  }

  /** `k` is the position of the first record `f` accepts. */
  predicate IsFirst<T>(s: seq<T>, f: T -> bool, k: nat) {
    k < |s| && f(s[k]) && forall j :: 0 <= j < k ==> !f(s[j])
  }

  /** `f` accepts no record. */
  predicate NoneAccepted<T>(s: seq<T>, f: T -> bool) {
    forall k :: 0 <= k < |s| ==> !f(s[k])
  }

  /** `findOne`: the position of the first record `f` accepts. */
  function FirstIndex<T>(s: seq<T>, f: T -> bool): (r: Option<nat>)
    ensures r.Some? ==> IsFirst(s, f, r.value)
    ensures r.None? <==> NoneAccepted(s, f)
  {
    if |s| == 0 then None
    else if f(s[0]) then Some(0)
    else
      match FirstIndex(s[1..], f)
      case None => None
      case Some(i) => Some(i + 1)
  }

  /** A store that grew by one record: `findOne` still finds an earlier match,
      and finds the new record when nothing earlier matches. */
  lemma {:induction false} FirstIndexAppend<T>(s: seq<T>, x: T, f: T -> bool)
    ensures FirstIndex(s, f).Some? ==> FirstIndex(s + [x], f) == FirstIndex(s, f)
    ensures FirstIndex(s, f).None? && f(x) ==> FirstIndex(s + [x], f) == Some(|s|)
  {
    if |s| > 0 {
      assert (s + [x])[1..] == s[1..] + [x];
      FirstIndexAppend(s[1..], x, f);
    }
  }

  /** No identifier occurs twice. */
  predicate Distinct(ids: seq<Id>) {
    forall i, j :: 0 <= i < j < |ids| ==> ids[i] != ids[j]
  }

  /** An identifier above every identifier in use. */
  function FreshId(ids: seq<Id>): (r: Id)
    ensures forall k :: 0 <= k < |ids| ==> ids[k] < r
  {
    if |ids| == 0 then 0
    else
      var rest := FreshId(ids[1..]);
      if ids[0] < rest then rest else ids[0] + 1
  }

  /** Appending a fresh identifier keeps identifiers distinct. */
  lemma DistinctAppendFresh(ids: seq<Id>)
    requires Distinct(ids)
    ensures Distinct(ids + [FreshId(ids)])
  {
    var next := FreshId(ids);
    forall i, j | 0 <= i < j < |ids + [next]|
      ensures (ids + [next])[i] != (ids + [next])[j]
    {
      if j == |ids| {
        assert (ids + [next])[i] == ids[i] < next;
      } else {
        assert (ids + [next])[i] == ids[i] && (ids + [next])[j] == ids[j];
      }
    }
  }
}

=== FILE: users.dfy ===
/** controllers/users.js: registration, login, Google sign-in and profile
    edit over the Users collection.

    The password hash, the password comparison and the token signer are
    parameters (`hash`, `compare`, `sign`): bcrypt and JWT are outside the
    model. The caller of `EditUser` is the identity the authentication
    middleware attached to the request (`Claims`). */
module Users {
  import opened Store
  import opened Schema

  const FillAllColumns := "Please fill all the columns"
  const ShortPassword := "Minimum password is six characters"
  const ShortUsername := "Minimum username is six characters"
  const ShortPhone := "Phone must have a minimum of eleven characters"
  const EmailTaken := "Email already exists"
  const InvalidLogin := "Invalid email/password"

  /** The five body fields of a registration; `None` is a JSON null. */
  datatype RegisterBody = RegisterBody(username: Option<string>, email: Option<string>,
                                       password: Option<string>, address: Option<string>,
                                       phone: Option<string>)

  // ---------------------------------------------------------------------------
  // JavaScript string length: `.length` counts UTF-16 code units, so a
  // character outside the Basic Multilingual Plane counts twice.
  // ---------------------------------------------------------------------------

  function CodeUnits(c: char): nat {
    if (c as int) < 0x1_0000 then 1 else 2
  }

  function Utf16Length(s: string): (n: nat)
    ensures |s| <= n <= 2 * |s|
    ensures n == 0 <==> s == ""
  {
    if |s| == 0 then 0 else CodeUnits(s[0]) + Utf16Length(s[1..])
  }

  /** `.length` of a concatenation is the sum of the lengths. */
  lemma {:induction false} Utf16LengthAppend(a: string, b: string)
    ensures Utf16Length(a + b) == Utf16Length(a) + Utf16Length(b)
  {
    if |a| == 0 {
      assert a + b == b;
    } else {
      assert (a + b)[0] == a[0] && (a + b)[1..] == a[1..] + b;
      Utf16LengthAppend(a[1..], b);
    }
  }

  /** `.length` equals the number of characters exactly when none of them lies
      outside the Basic Multilingual Plane. */
  lemma {:induction false} Utf16LengthOfBmp(s: string)
    ensures Utf16Length(s) == |s| <==> forall k :: 0 <= k < |s| ==> (s[k] as int) < 0x1_0000
  {
    if |s| > 0 {
      Utf16LengthOfBmp(s[1..]);
      assert forall k :: 1 <= k < |s| ==> s[k] == s[1..][k - 1];
    }
  }

  /** Four letters and one astral character reach the six units the password
      rule asks for, though they are only five characters. */
  lemma AstralCountsTwice(s: string, c: char)
    requires Utf16Length(s) == 4 && (c as int) >= 0x1_0000
    ensures |s + [c]| <= 5 && Utf16Length(s + [c]) == 6
  {
    Utf16LengthAppend(s, [c]);
    assert Utf16Length([c]) == CodeUnits(c) + Utf16Length([c][1..]);
  }

  // ---------------------------------------------------------------------------
  // The registration checks as a list of rules, in the order they run.
  // ---------------------------------------------------------------------------

  datatype Rule = AnyNull | PasswordTooShort | UsernameTooShort | PhoneTooShort | AnyEmpty

  const RuleOrder: seq<Rule> := [AnyNull, PasswordTooShort, UsernameTooShort, PhoneTooShort, AnyEmpty]

  /** The body breaks `rule`, judged on its own. A phone of length 0 is not
      "too short": an empty phone is left to the emptiness rule. */
  predicate Violates(b: RegisterBody, rule: Rule) {
    match rule
    case AnyNull =>
      b.username.None? || b.email.None? || b.password.None? || b.address.None? || b.phone.None?
    case PasswordTooShort => b.password.Some? && Utf16Length(b.password.value) < 6
    case UsernameTooShort => b.username.Some? && Utf16Length(b.username.value) < 6
    case PhoneTooShort => b.phone.Some? && Utf16Length(b.phone.value) < 11 && b.phone.value != ""
    case AnyEmpty => b.email == Some("") || b.address == Some("") || b.phone == Some("")
  }

  function RuleMessage(rule: Rule): string {
    match rule
    case AnyNull => FillAllColumns
    case PasswordTooShort => ShortPassword
    case UsernameTooShort => ShortUsername
    case PhoneTooShort => ShortPhone
    case AnyEmpty => FillAllColumns
  }

  /** The `k`-th rule is the earliest one the body breaks. */
  predicate FirstViolated(b: RegisterBody, k: nat) {
    && k < |RuleOrder|
    && Violates(b, RuleOrder[k])
    && forall j :: 0 <= j < k ==> !Violates(b, RuleOrder[j])
  }

  /** A body that passes every check, stated field by field. */
  predicate Admissible(b: RegisterBody) {
    && b.username.Some? && b.email.Some? && b.password.Some? && b.address.Some? && b.phone.Some?
    && Utf16Length(b.password.value) >= 6
    && Utf16Length(b.username.value) >= 6
    && Utf16Length(b.phone.value) >= 11
    && b.email.value != ""
    && b.address.value != ""
  }

  /** The `if / else if` chain of `register`: the first failing check picks
      the message. */
  function CheckFields(b: RegisterBody): (r: Option<Failure>)
    ensures r.None? <==> Admissible(b)
    ensures r.None? <==> forall k :: 0 <= k < |RuleOrder| ==> !Violates(b, RuleOrder[k])
    ensures r.Some? ==> exists k: nat :: FirstViolated(b, k) && r.value == Fail(400, RuleMessage(RuleOrder[k]))
  {
    if b.username.None? || b.email.None? || b.password.None? || b.address.None? || b.phone.None? then
      assert FirstViolated(b, 0);
      Some(Fail(400, FillAllColumns))
    else if Utf16Length(b.password.value) < 6 then
      assert FirstViolated(b, 1);
      Some(Fail(400, ShortPassword))
    else if Utf16Length(b.username.value) < 6 then
      assert FirstViolated(b, 2);
      Some(Fail(400, ShortUsername))
    else if Utf16Length(b.phone.value) < 11 && b.phone.value != "" then
      assert FirstViolated(b, 3);
      Some(Fail(400, ShortPhone))
    else if b.email.value == "" || b.address.value == "" || b.phone.value == "" then
      assert FirstViolated(b, 4);
      Some(Fail(400, FillAllColumns))
    else
      None
  }

  // ---------------------------------------------------------------------------
  // Lookups by email (`findOne({ email })`).
  // ---------------------------------------------------------------------------

  /** The filter `{ email }`. */
  function HasEmail(email: string): User -> bool {
    (u: User) => u.email == email
  }

  /** Appending a user with a fresh identifier that the validator admits keeps
      the collection invariant. */
  lemma UsersOkAppend(users: seq<User>, u: User)
    requires ValidUser(u) && u.id == FreshId(UserIds(users))
    ensures UsersOk(users) ==> UsersOk(users + [u])
  {
    assert UserIds(users + [u]) == UserIds(users) + [u.id];
    if UsersOk(users) {
      DistinctAppendFresh(UserIds(users));
    }
  }

  // ---------------------------------------------------------------------------
  // register
  // ---------------------------------------------------------------------------

  /** The public projection `register` answers with; it has no password. */
  datatype Account = Account(email: string, id: Id, username: string)

  function Register(users: seq<User>, b: RegisterBody, hash: string -> string): (out: Reply<seq<User>, Account>)
    ensures out.result.Err? ==> out.store == users
    ensures CheckFields(b).Some? ==> out.result == Err(CheckFields(b).value)
    ensures Admissible(b) && !NoneAccepted(users, HasEmail(b.email.value)) ==>
              out.result == Err(Fail(400, EmailTaken))
    ensures Admissible(b) && NoneAccepted(users, HasEmail(b.email.value)) && !EmailPattern(b.email.value) ==>
              out.result == Err(DocumentInvalid)
    ensures out.result.Ok? <==>
              Admissible(b) && NoneAccepted(users, HasEmail(b.email.value)) && EmailPattern(b.email.value)
    ensures out.result.Ok? ==>
              var id := out.result.value.id;
              && (forall k :: 0 <= k < |users| ==> users[k].id < id)
              && out.store == users + [User(id, b.username.value, b.email.value,
                                            hash(b.password.value), b.address.value, b.phone.value)]
              && out.result.value == Account(b.email.value, id, b.username.value)
    ensures UsersOk(users) ==> UsersOk(out.store)
  {
    match CheckFields(b)
    case Some(e) => Reply(users, Err(e))
    case None =>
      if FirstIndex(users, HasEmail(b.email.value)).Some? then
        Reply(users, Err(Fail(400, EmailTaken)))
      else
        var doc := UserDoc(b.username, b.email, Some(hash(b.password.value)), b.address, b.phone);
        if !ValidUserDoc(doc) then
          Reply(users, Err(DocumentInvalid))
        else
          var u := ToUser(FreshId(UserIds(users)), doc);
          assert forall k :: 0 <= k < |users| ==> users[k].id == UserIds(users)[k];
          UsersOkAppend(users, u);
          Reply(users + [u], Ok(Account(u.email, u.id, u.username)))
  }

  /** Null comes first: any null field gets "Please fill all the columns",
      whatever else is wrong with the body. */
  lemma RegisterNullFirst(users: seq<User>, b: RegisterBody, hash: string -> string)
    requires b.username.None? || b.email.None? || b.password.None? || b.address.None? || b.phone.None?
    ensures Register(users, b, hash) == Reply(users, Err(Fail(400, FillAllColumns)))
  {
    assert FirstViolated(b, 0);
  }

  /** A short password wins over a short username (and every later check). */
  lemma RegisterPasswordBeforeUsername(users: seq<User>, b: RegisterBody, hash: string -> string)
    requires b.username.Some? && b.email.Some? && b.password.Some? && b.address.Some? && b.phone.Some?
    requires Utf16Length(b.password.value) < 6
    ensures Register(users, b, hash) == Reply(users, Err(Fail(400, ShortPassword)))
  {
  }

  /** An empty phone skips the length check and is reported as an empty field. */
  lemma RegisterEmptyPhone(users: seq<User>, b: RegisterBody, hash: string -> string)
    requires b.username.Some? && b.email.Some? && b.password.Some? && b.address.Some?
    requires Utf16Length(b.password.value) >= 6 && Utf16Length(b.username.value) >= 6
    requires b.phone == Some("")
    ensures Register(users, b, hash) == Reply(users, Err(Fail(400, FillAllColumns)))
  {
  }

  /** Registering the same body twice: the second call finds the email taken
      and changes nothing. */
  lemma RegisterTwice(users: seq<User>, b: RegisterBody, hash: string -> string)
    requires Register(users, b, hash).result.Ok?
    ensures var after := Register(users, b, hash).store;
            Register(after, b, hash) == Reply(after, Err(Fail(400, EmailTaken)))
  {
    var after := Register(users, b, hash).store;
    assert after[|users|].email == b.email.value;
  }

  // ---------------------------------------------------------------------------
  // login
  // ---------------------------------------------------------------------------

  /** The token payload `{ _id, username, email }`. */
  datatype Claims = Claims(id: Id, username: string, email: string)

  function ClaimsOf(u: User): Claims {
    Claims(u.id, u.username, u.email)
  }

  datatype Session = Session(accessToken: string, account: User)

  function Login(users: seq<User>, email: string, password: string,
                 compare: (string, string) -> bool, sign: Claims -> string): (r: Result<Session>)
    ensures r.Err? ==> r.error == Fail(401, InvalidLogin)
    ensures NoneAccepted(users, HasEmail(email)) ==> r.Err?
    ensures forall k: nat :: IsFirst(users, HasEmail(email), k) ==>
              if compare(password, users[k].password)
              then r == Ok(Session(sign(Claims(users[k].id, users[k].username, users[k].email)), users[k]))
              else r.Err?
  {
    match FirstIndex(users, HasEmail(email))
    case None => Err(Fail(401, InvalidLogin))
    case Some(k) =>
      if !compare(password, users[k].password) then Err(Fail(401, InvalidLogin))
      else Ok(Session(sign(ClaimsOf(users[k])), users[k]))
  }

  /** An unknown email and a wrong password for a known one are answered
      identically, so a caller cannot tell which accounts exist. */
  lemma LoginDoesNotRevealAccounts(users: seq<User>, unknown: string, p1: string,
                                   known: string, k: nat, p2: string,
                                   compare: (string, string) -> bool, sign: Claims -> string)
    requires NoneAccepted(users, HasEmail(unknown))
    requires IsFirst(users, HasEmail(known), k) && !compare(p2, users[k].password)
    ensures Login(users, unknown, p1, compare, sign) == Login(users, known, p2, compare, sign)
  {
  }

  /** Registration then login with the same credentials succeeds and signs the
      new account's claims, provided the comparison accepts a password against
      its own hash. */
  lemma RegisterThenLogin(users: seq<User>, b: RegisterBody, hash: string -> string,
                          compare: (string, string) -> bool, sign: Claims -> string)
    requires forall p :: compare(p, hash(p))
    requires Register(users, b, hash).result.Ok?
    ensures var out := Register(users, b, hash);
            var id := out.result.value.id;
            Login(out.store, b.email.value, b.password.value, compare, sign)
              == Ok(Session(sign(Claims(id, b.username.value, b.email.value)), out.store[|users|]))
  {
    var out := Register(users, b, hash);
    assert IsFirst(out.store, HasEmail(b.email.value), |users|);
  }

  // ---------------------------------------------------------------------------
  // googleSignIn (the identity provider's ticket check is outside the model)
  // ---------------------------------------------------------------------------

  /** What the verified Google ticket says about the caller. */
  datatype GoogleProfile = GoogleProfile(email: string, name: Option<string>)

  /** `email.substring(0, email.indexOf('@'))`: the text before the first `@`,
      or "" when there is no `@` (a negative end index counts as 0). */
  function EmailLocalName(email: string): (r: string)
    ensures '@' in email ==> r + "@" <= email && '@' !in r
    ensures '@' !in email ==> r == ""
  {
    match FirstIndex(email, IsAt)
    case None => ""
    case Some(i) =>
      assert email[..i] + "@" == email[..i + 1];
      email[..i]
  }

  /** `payload.name || ...`: an absent or empty name falls back to the local name. */
  function GoogleUsername(p: GoogleProfile): (r: string)
    ensures p.name.Some? && p.name.value != "" ==> r == p.name.value
    ensures (p.name.None? || p.name.value == "") && '@' in p.email ==> r + "@" <= p.email && '@' !in r
    ensures (p.name.None? || p.name.value == "") && '@' !in p.email ==> r == ""
  {
    if p.name.Some? && p.name.value != "" then p.name.value else EmailLocalName(p.email)
  }

  /** Find-or-create: a known email signs in to the first account holding it;
      an unknown one gets a new account with placeholder address and phone "-"
      and the digest `googlePassword` of the shared Google password. */
  function GoogleSignIn(users: seq<User>, p: GoogleProfile, googlePassword: string,
                        sign: Claims -> string): (out: Reply<seq<User>, Session>)
    ensures forall k: nat :: IsFirst(users, HasEmail(p.email), k) ==>
              out == Reply(users, Ok(Session(sign(ClaimsOf(users[k])), users[k])))
    ensures NoneAccepted(users, HasEmail(p.email)) && !EmailPattern(p.email) ==>
              out == Reply(users, Err(DocumentInvalid))
    ensures NoneAccepted(users, HasEmail(p.email)) && EmailPattern(p.email) ==>
              && out.result.Ok?
              && var u := out.result.value.account;
              && out.store == users + [u]
              && (forall k :: 0 <= k < |users| ==> users[k].id < u.id)
              && u == User(u.id, GoogleUsername(p), p.email, googlePassword, "-", "-")
              && out.result.value.accessToken == sign(ClaimsOf(u))
    ensures UsersOk(users) ==> UsersOk(out.store)
  {
    match FirstIndex(users, HasEmail(p.email))
    case Some(k) => Reply(users, Ok(Session(sign(ClaimsOf(users[k])), users[k])))
    case None =>
      var doc := UserDoc(Some(GoogleUsername(p)), Some(p.email), Some(googlePassword), Some("-"), Some("-"));
      if !ValidUserDoc(doc) then
        Reply(users, Err(DocumentInvalid))
      else
        var u := ToUser(FreshId(UserIds(users)), doc);
        assert forall k :: 0 <= k < |users| ==> users[k].id == UserIds(users)[k];
        UsersOkAppend(users, u);
        Reply(users + [u], Ok(Session(sign(ClaimsOf(u)), u)))
  }

  /** Signing in with Google twice creates at most one account: the second call
      changes nothing and answers with the same account and token. */
  lemma GoogleSignInTwice(users: seq<User>, p: GoogleProfile, googlePassword: string,
                          sign: Claims -> string)
    requires GoogleSignIn(users, p, googlePassword, sign).result.Ok?
    ensures var first := GoogleSignIn(users, p, googlePassword, sign);
            GoogleSignIn(first.store, p, googlePassword, sign) == first
  {
    var first := GoogleSignIn(users, p, googlePassword, sign);
    match FirstIndex(users, HasEmail(p.email))
    case Some(k) =>
      assert IsFirst(users, HasEmail(p.email), k);
    case None =>
      assert IsFirst(first.store, HasEmail(p.email), |users|);
  }

  // ---------------------------------------------------------------------------
  // editUser
  // ---------------------------------------------------------------------------

  datatype EditBody = EditBody(username: Option<string>, email: Option<string>,
                               address: Option<string>, phone: Option<string>)

  /** `NoResponse`: no record has the caller's id, and the handler's
      `if (updatedUser.value)` has no else branch, so nothing is sent. */
  datatype Edited = Edited(account: User) | NoResponse

  /** The filter `{ _id }`. */
  function HasId(id: Id): User -> bool {
    (u: User) => u.id == id
  }

  /** A body the Users validator admits once the stored password is kept. */
  predicate EditAdmissible(body: EditBody) {
    && body.username.Some? && body.email.Some? && body.address.Some? && body.phone.Some?
    && EmailPattern(body.email.value)
  }

  /** `$set` of username, email, address and phone on the caller's own record. */
  function EditUser(users: seq<User>, caller: Claims, body: EditBody): (out: Reply<seq<User>, Edited>)
    ensures |out.store| == |users|
    ensures forall k :: 0 <= k < |users| ==>
              out.store[k].id == users[k].id && out.store[k].password == users[k].password
    ensures forall k :: 0 <= k < |users| && out.store[k] != users[k] ==>
              users[k].id == caller.id && forall j :: 0 <= j < k ==> users[j].id != caller.id
    ensures (forall k :: 0 <= k < |users| ==> users[k].id != caller.id) ==>
              out == Reply(users, Ok(NoResponse))
    ensures out.result.Err? ==> out == Reply(users, Err(DocumentInvalid))
    ensures out.result.Ok? && out.result.value.Edited? ==>
              var a := out.result.value.account;
              && a.id == caller.id && a in out.store
              && Some(a.username) == body.username && Some(a.email) == body.email
              && Some(a.address) == body.address && Some(a.phone) == body.phone
    ensures (exists k :: 0 <= k < |users| && users[k].id == caller.id) ==>
              (out.result.Ok? <==> body.username.Some? && body.email.Some? && body.address.Some?
                                   && body.phone.Some? && EmailPattern(body.email.value))
    ensures forall k: nat :: IsFirst(users, HasId(caller.id), k) && EditAdmissible(body) ==>
              var u := users[k].(username := body.username.value, email := body.email.value,
                                 address := body.address.value, phone := body.phone.value);
              out == Reply(users[k := u], Ok(Edited(u)))
    ensures UsersOk(users) ==> UsersOk(out.store)
  {
    match FirstIndex(users, HasId(caller.id))
    case None => Reply(users, Ok(NoResponse))
    case Some(k) =>
      var current := users[k];
      var doc := UserDoc(body.username, body.email, Some(current.password), body.address, body.phone);
      if !ValidUserDoc(doc) then
        Reply(users, Err(DocumentInvalid))
      else
        var u := ToUser(current.id, doc);
        assert UserIds(users[k := u]) == UserIds(users);
        Reply(users[k := u], Ok(Edited(u)))
  }
}
